=== FILE: README.md ===
# Crossy road game core in Dafny

This project models the game core of a small Ursina "crossy road" game, in its two versions:
- `main2.py`, the later version, is module `Later`;
- `main.py`, the earlier version, is module `Early`.

The core covers:
- **Lane generator**: the terrain manager generates strips row by row. Each lane kind comes from the row and a random draw, the lane list is a FIFO window of at most 40 strips, and hazard speeds, spawn sides and tree columns come from fixed sets.
- **Spawners**: road and river lanes run self-rescheduling spawners that emit cars and logs.
- **Chicken**: its key input, hop, landing, river logic, score and one-shot death.
- **Movers**: cars and logs that advance and are culled past the edge.
- **Restart**: `reset_game` exists in the later version only.

Files:
- `rules.dfy` (`Rules`): the pure choices both versions share. These are the lane-kind thresholds, speed and tree sets, spawn side, key-to-step mapping, Python `int()` truncation and the order of death causes in a tick.
- `window.dfy` (`Window`): the lane list as a FIFO window, and the rows the terrain manager asks for.
- `entities.dfy` (`Entities`): the classes both versions share unchanged:
  - `Mover` is a car or a log: position, speed and an `alive` flag.
  - `Chicken` holds position, `is_moving`, `parent_log` and the target of a hop in flight.
- `later.dfy` and `early.dfy`: each version's globals, as a `World` class, with its own game-over gating, `die`, spawner and terrain manager.
- `scenarios.dfy`: concrete runs through the operations, with fixed probe results and draws.

How the engine appears in the model:
- `destroy()` is an `enabled` flag on strips and an `alive` flag on movers. The scene's cars and logs are the lists `World.cars` and `World.logs`.
- A pending `invoke(spawn, delay)` is a `Timer` record in `World.timers`.
- `raycast` results are a `Probe`: no hit, a tagged entity, or a log. `intersects` is a boolean.
- Random draws are a `Draws` record whose ranges are preconditions.

**Lane rows are not contiguous past 40.** The terrain manager generates each lane at row `len(lanes)`. Once the window is full its length stays 40, so every later lane is generated at row 40 again. The model reproduces this:
- `Window.GrownRowsShape` gives the exact rows.
- `Window.RowsRepeatAfterEviction` shows the repetition.

## Model

| member | source | states |
|---|---|---|
| Rules.KindOf | main2.py:197-203 | Rows below 5 are grass whatever the draw. Past them, a draw under 0.4 gives grass, one in [0.4, 0.7) a road, and one from 0.7 a river, each as an if-and-only-if. main.py:173-183 is the same rule. |
| Rules.StripTag | main2.py:206-219 | A strip is tagged water exactly when it is a river, otherwise ground. |
| Rules.HazardOf | main2.py:212-221 | A road spawns cars and a river spawns logs. |
| Rules.SpeedsFor | main2.py:214-220 | Four nonzero speeds each, closed under negation, so both directions occur. Car speeds have magnitude exactly 3 or 4, and both occur. Log speeds have magnitude exactly 1.5 or 2, and both occur. |
| Rules.SpawnY | main2.py:248-251 | Cars appear at ground height 1, logs at height 0.1, strictly between 0 and 1. |
| Rules.TreeX | main2.py:208-209 | A tree column is one of -3, -2, 2, 3, never the centre column. |
| Rules.StartX | main2.py:237 | A hazard enters 12 from the centre, on the left exactly when its speed is positive. |
| Rules.Offset | main2.py:116-120 | w, s, a and d step forward, back, left and right, each as an if-and-only-if. Every other key asks for no step, and no step is diagonal. |
| Rules.Trunc | main2.py:96-97 | Python `int()` on a float truncates toward zero, within one of the value, on both sides of zero. |
| Rules.Furthest | main2.py:96-98 | The new score is the larger of the old score and the truncated row, so it never decreases. |
| Rules.FirstCause | main2.py:90-109 | The first die call of a tick has cause fall exactly when the chicken is below the world, or, not being over water without a log, it drifts off on a log. It has cause water exactly when the chicken is not below the world and is over water without a log. It is never car. No die happens exactly when none of the three holds. |
| Window.Admit | main2.py:223-229 | Appending keeps the new strip last and the survivors in order. The window grows by one until it holds 40, then keeps its size by dropping the oldest. |
| Window.MapAdmit | main2.py:223-229 | Admitting a strip admits its row: the rows of the new window are the old rows admitted with the new row. |
| Window.NewestAdmit | main2.py:223-229 | One admission followed by more history keeps the same newest 40 entries as the whole history. |
| Window.AdmitAllKeepsNewest | main2.py:223-229 | FIFO: after any number of generated strips, the window holds exactly the 40 most recent, oldest first. |
| Window.AdmitAllBounded | main2.py:223-229 | The window's length is the number of strips generated so far, capped at 40. |
| Window.RowShape | main2.py:192-194 | The reference rows after n generated lanes: min(n, 40) of them, 0 to n - 1 while n is at most 40, never decreasing and never above 40. The newest is min(n - 1, 40), and after evictions the oldest is min(n - 40, 40). |
| Window.RowShapeStep | main2.py:192-194 | Generating one more lane at row `len(lanes)` moves that shape on by one step. |
| Window.GrownRowsShape | main2.py:192-194 | The rows the terrain manager generates into an empty list have exactly that shape. |
| Window.RowsContiguousWhileFilling | main2.py:192-194 | While at most 40 lanes have been generated, the rows are 0 up to n - 1. |
| Window.RowsRepeatAfterEviction | main2.py:192-194 | After 42 or more lanes, the two newest strips both sit at row 40. |
| Entities.Mover.constructor | main2.py:163-168 | A new car or log has the given position and speed, is alive, and stands at its hazard's height. |
| Entities.Mover.Advance | main2.py:172-173 | x advances by speed * dt. A live mover stays alive exactly while it is within 15 of the centre, and a dead one stays dead. |
| Entities.Chicken.constructor | main2.py:78-84 | The chicken starts at (0, 1, 0), not hopping, on no log. |
| Entities.Chicken.Ride | main2.py:101-111 | Water keeps the log and reports drowning when there is no log. A log is attached and carries x by its speed * dt, and reports a fall past 10. Other solid ground clears the log. No hit changes nothing. |
| Entities.Chicken.Input | main2.py:113-138 | A step is accepted exactly when the chicken is not hopping, the game is not over, the key is w, s, a or d, the target is within 4 of the centre and no obstacle is ahead. An accepted step sets hopping, clears the log and aims at the target square. Anything else changes nothing. main.py:84-112 is the same code. |
| Entities.Chicken.Arrive | main2.py:136 | When the hop tween ends the chicken stands on its target square, within 4 of the centre. |
| Entities.Chicken.Land | main2.py:140-142 | Landing puts the chicken back at height 1 and ends the hop, and nothing else changes. |
| Entities.Chicken.Respawn | main2.py:56-59 | The chicken is back at (0, 1, 0) on no log. |
| Later.Strip.constructor | main2.py:206-221 | A new strip is enabled, at its row, of its kind, tagged by its kind, and carries its tree if any. |
| Later.DestroyAll | main2.py:63-65 | Every mover in the list is destroyed. |
| Later.World.constructor | main2.py:258-263 | The game starts through `reset_game`, with 15 lanes for rows 0 to 14, lane i of the kind its draw gives, and the chicken at the origin. |
| Later.World.Die | main2.py:144-147 | The game ends. The first cause is kept, so a second call changes nothing. |
| Later.World.Input | main2.py:113-138 | After game over, or while hopping, a key press changes nothing. Otherwise a step key within the side bound and not into an obstacle starts the hop to the target square, off any log, with the chicken still where it stood, and any other press (a non-move key, a step past the bound or into an obstacle) changes nothing. |
| Later.World.UpdateChicken | main2.py:86-98 | After game over nothing changes. Otherwise the score becomes the furthest row reached and never decreases. The recorded cause is the first die call of the tick. |
| Later.World.Ground | main2.py:101-111 | The chicken's ride, then a die with the cause of its branch. An earlier game over keeps its cause. |
| Later.World.UpdateCar | main2.py:170-176 | A frozen car after game over. Otherwise it moves, is alive exactly while within 15, and an overlap ends the game with cause car. |
| Later.World.UpdateLog | main2.py:186-189 | A frozen log after game over. Otherwise it moves and is alive exactly while within 15. |
| Later.World.Spawn | main2.py:239-254 | A firing while the game is over or the strip is destroyed adds nothing and is not rescheduled. Otherwise it adds one car or log at the edge it moves away from, and reschedules once with a delay in [1.5, 3.5]. |
| Later.World.FireSpawner | main2.py:239-254 | A due reschedule is removed. It fires again only while the game runs and its strip is still in the window. |
| Later.World.SpawnLane | main2.py:196-229 | One new strip of the drawn kind at the given row is admitted to the window. Past 40 the oldest strip is destroyed. Grass gets its tree with chance 0.3. A road or river fires its spawner once unless the game is over. |
| Later.World.GrassLane | main2.py:206-210 | A grass strip with a tree exactly when the tree draw is under 0.3, admitted to the window. No spawner. |
| Later.World.HazardLane | main2.py:212-221 | A road or river strip admitted to the window, with its spawner's first firing at the drawn speed. |
| Later.World.Append | main2.py:223-229 | The window admits the strip. The evicted oldest strip is destroyed, which stops its spawner. Nothing else changes. |
| Later.World.UpdateTerrain | main2.py:192-194 | Score, game state and cause never change. After game over, or with the chicken 15 or more rows short of `len(lanes)`, nothing changes. Otherwise one lane of the drawn kind is generated at row `len(lanes)`, and the window's rows are the old rows with that row admitted. Past 40 the oldest strip is destroyed. Grass gets its tree when the draw is under 0.3 and leaves the movers and timers alone. A road or river fires its spawner once. |
| Later.World.Sweep | main2.py:63-65 | Every strip, car and log is destroyed, so every pending spawner's strip is dead. |
| Later.World.Reset | main2.py:43-71 | Score 0, game running and no cause. The chicken is at (0, 1, 0) on no log, and every earlier strip, car and log is destroyed, so no earlier spawner can fire. There are 15 fresh lanes for rows 0 to 14, lane i of the kind its draw gives. |
| Later.World.Clear | main2.py:63-67 | The scene is swept and the lane, car and log lists are empty. |
| Later.World.Rebuild | main2.py:69-71 | 15 fresh lanes for rows 0 to 14 in the emptied window, lane i of the kind its draw gives. |
| Later.World.StartLane | main2.py:70-71 | One pass of the start-up loop into a window below 40: the new strip is appended at row i with the kind its draw gives, and nothing earlier is evicted. |
| Early.Strip.constructor | main.py:186-202 | A new strip is enabled, at its row, of its kind, tagged by its kind. |
| Early.World.constructor | main.py:233-238 | The game starts with the chicken at the origin and 15 lanes for rows 0 to 14, lane i of the kind its draw gives. |
| Early.World.Start | main.py:237-238 | The start-up loop gives 15 fresh lanes, row i of the kind its draw gives. |
| Early.World.Die | main.py:118-121 | The game ends, and a second call changes nothing. |
| Early.World.Input | main.py:84-112 | After game over, or while hopping, a key press changes nothing. Otherwise a step key within the side bound and not into an obstacle starts the hop to the target square, off any log, with the chicken still where it stood, and any other press (a non-move key, a step past the bound or into an obstacle) changes nothing. |
| Early.World.UpdateChicken | main.py:48-63 | After game over nothing changes. Otherwise the score becomes the furthest row reached and never decreases, and the game ends exactly when some die call of the tick happens. |
| Early.World.Ground | main.py:65-82 | The chicken's ride, then die when its branch calls it. |
| Early.World.UpdateCar | main.py:139-146 | With or without game over, the car moves and is alive exactly while within 15. An overlap ends the game. |
| Early.World.UpdateLog | main.py:160-163 | With or without game over, the log moves and is alive exactly while within 15. |
| Early.World.Spawn | main.py:217-226 | A firing adds nothing only when the game is over. Otherwise it adds one car or log at the edge it moves away from and reschedules. |
| Early.World.FireSpawner | main.py:215-228 | A due reschedule fires whenever the game runs, whether or not its lane is still in the window. |
| Early.World.SpawnLane | main.py:171-213 | One new strip of the drawn kind at the given row is admitted to the window. Past 40 only the oldest strip is destroyed. Grass adds a tree beside the strip with chance 0.3. A road or river fires its spawner once unless the game is over. |
| Early.World.GrassLane | main.py:186-191 | A grass strip and, exactly when the tree draw is under 0.3, a tree at a tree column on its row. |
| Early.World.HazardLane | main.py:193-206 | A road or river strip, with its spawner's first firing at the drawn speed. |
| Early.World.Append | main.py:208-213 | The window admits the strip, and the evicted oldest strip is destroyed. Trees, movers and spawners are untouched. |
| Early.World.UpdateTerrain | main.py:166-169 | Score and game state never change. With or without game over: with the chicken 15 or more rows short of `len(lanes)` nothing changes. Otherwise one lane of the drawn kind is generated at row `len(lanes)`, and the window's rows are the old rows with that row admitted. Past 40 the oldest strip is destroyed. Grass adds a tree when the draw is under 0.3. A road or river fires its spawner once unless the game is over. |
| Scenarios.LeftPastBoundIsRefused | main2.py:122-124 | In a running game, after four hops left the chicken is at -4. A fifth left hop is refused and it is not hopping. |
| Scenarios.WaterWithoutLogDrowns | main2.py:104-105 | Over water with no log, the next tick ends the game with cause water. |
| Scenarios.DriftOffLogFalls | main2.py:106-109 | On a log of speed 2 at offset 9.5 with dt 0.5, the chicken reaches 10.5 and dies of a fall. |
| Scenarios.CarPastCullIsDestroyed | main2.py:172-173 | A car at 14.9 with speed 4 and dt 0.1 reaches 15.3 and is destroyed. |
| Scenarios.FirstDeathSticks | main2.py:144-147 | Run over and then drowned: the cause stays car. |
| Scenarios.RestartAfterRunOver | main2.py:43-71 | A restart after being run over gives score 0, a running game, the chicken at the origin and 15 lanes. |
| Scenarios.EarlyCarMovesAfterDeath | main.py:139-142 | In the earlier version a car still moves after the game is over. |

## Left out

- Presentation is not modelled: the window, camera and its follow, colours, the score and game-over `Text`, the restart `Button`, sounds, `print`, and `player.enabled = True` in `reset_game`. None of it affects the game state.
- Animation is not modelled: the hop arc (`animate_y`), the death tip (`rotation_z`) and its settle. The hop's horizontal tween is reduced to its end point, `Chicken.Arrive`. `Chicken.Land` is called by the caller where the game schedules it 0.1 after the hop.
- `raycast` and `intersects` are engine geometry, so their results are parameters. The probe's origin, distance and `ignore` list are not modelled.
- `random.random`, `random.choice` and `random.uniform` are parameters (`Draws`, and the delay of `FireSpawner`), and their ranges are preconditions. Draws a branch does not use are ignored.
- `invoke` scheduling and its clock are not modelled. A pending spawn is a `Timer` record, and the caller chooses which one comes due. Delays are recorded, not counted down.
- `time.dt` and positions are Dafny reals, without floating-point rounding.
- Entity truthiness is not modelled. The references tested by `if old_strip:` (main2.py:228), `not strip_ref` (main2.py:245) and `not self.parent_log` (main2.py:105, main.py:71) are treated as always truthy once set, even after the entity is destroyed. Only the `enabled` and `alive` flags are modelled.
- In the model `parent_log` may keep referring to a log that has since been culled, and that log still counts as a log to stand on.
- Later.World.HazardLane: appends the new strip before its spawner's first firing, while the game fires first. That firing reads neither the lane list nor the evicted strip, so the resulting state is the same.
- Later.World.UpdateCar, Later.World.UpdateLog, Early.World.UpdateCar, Early.World.UpdateLog: they require a live mover of the scene, because the engine runs `update` only for live entities.
- The later version's trees are children of their strip, destroyed with it. They are the strip's `tree` field, not entities of their own.
- Later.World.Reset: the model assumes a complete sweep that destroys every strip, tree, car and log. The game's loop runs forwards over `scene.entities`, a list that `destroy` shrinks, so it skips the entity after each one it removes. The game's sweep can therefore leave strips, trees, cars and logs alive, and with them earlier spawners that keep firing.
- Later.World.Die: `World.cause` records the argument of the one `die` call that takes effect. The game stores no cause and uses it only to choose the death sound.
- Later.World.UpdateChicken, Later.World.Ground, Early.World.UpdateChicken, Early.World.Ground: they require that a log probe result is a log, because only entities tagged `log` reach that branch.
- Early.World.Die: the earlier `die` takes no cause, so the cause that `Chicken.Ride` reports is ignored there.
- The chicken's `Valid` (a hop in flight stays within the side bounds) is kept by `Input` and `Arrive`. `World` does not track it.

=== FILE: early.dfy ===
/** The earlier version of the game (main.py): die takes no cause, there is
    no restart, cars, logs and the terrain manager keep running after the
    game is over, a lane's spawner stops only when the game is over (never
    because its strip was evicted), and trees are separate entities that
    outlive the strip they were planted on. Engine destroy() is an `enabled`
    or `alive` flag; the scene's cars and logs are the lists World.cars and
    World.logs; invoke() reschedules are the Timer records in World.timers. */
module Early {
  import opened Rules
  import opened Window
  import opened Entities

  /** A terrain strip. */
  class Strip {
    const z: int
    const kind: LaneKind
    const tag: Tag
    ghost const serial: nat
    var enabled: bool

    constructor (z: int, kind: LaneKind, ghost serial: nat)
      ensures this.z == z && this.kind == kind
      ensures tag == StripTag(kind) && enabled && this.serial == serial
    {
      this.serial := serial;
      this.z := z;
      this.kind := kind;
      this.tag := StripTag(kind);
      enabled := true;
    }
  }

  /** A tree: an obstacle entity of its own, not a child of its strip, so
      nothing in this version ever destroys it. */
  datatype Tree = Tree(x: int, z: int)

  /** A pending invoke(spawn, delay): the spawner closure of one lane, which
      knows its row but not its strip. */
  datatype Timer = Timer(z: int, speed: real, hazard: Hazard, delay: real)

  /** The game's globals (score, game_over, lanes), the scene's trees and
      movers, pending spawner reschedules, and the terrain manager's
      operations. */
  class World {
    var score: int
    var gameOver: bool
    var lanes: seq<Strip>
    var trees: seq<Tree>
    var cars: seq<Mover>
    var logs: seq<Mover>
    var timers: seq<Timer>
    const player: Chicken
    // creation order of the strips in the window, which keeps them distinct
    ghost var base: nat

    ghost predicate Valid()
      reads this, lanes, cars, logs
    {
      && LanesValid()
      && MoversValid()
      && 0 <= score
    }

    /** The window holds at most Capacity distinct live strips; trees stand
        at one of the tree columns; every pending spawner belongs to a road
        or river row with a speed of its hazard's set. */
    ghost predicate LanesValid()
      reads this`lanes, this`base, this`trees, this`timers, lanes
    {
      && |lanes| <= Capacity
      && (forall i :: 0 <= i < |lanes| ==> lanes[i].serial == base + i)
      && (forall s :: s in lanes ==> s.enabled)
      && (forall t :: t in trees ==> t.x in TreeXs)
      && (forall t :: t in timers ==> t.speed in SpeedsFor(t.hazard) && MinDelay <= t.delay <= MaxDelay)
    }

    /** Every car and log moves at a speed of its set and, while alive,
        stays within the cull bound. */
    ghost predicate MoversValid()
      reads this`cars, this`logs, cars, logs
    {
      && (forall c :: c in cars ==>
            c.hazard == CarHazard && c.speed in RoadSpeeds && (c.alive ==> Abs(c.x) <= CullBound))
      && (forall l :: l in logs ==>
            l.hazard == LogHazard && l.speed in RiverSpeeds && (l.alive ==> Abs(l.x) <= CullBound))
    }

    /** The game start: a chicken at the origin, then the start-up loop. */
    constructor (draws: seq<Draws>)
      requires |draws| == StartLanes && forall i :: 0 <= i < |draws| ==> draws[i].InRange()
      ensures Valid() && player.Valid() && fresh(player)
      ensures player.x == 0.0 && player.y == GroundHeight && player.z == 0.0
      ensures !player.isMoving && player.parentLog == null && player.hop == None
      ensures score == 0 && !gameOver
      ensures |lanes| == StartLanes
      ensures forall i :: 0 <= i < |lanes| ==> lanes[i].z == i && lanes[i].kind == KindOf(i, draws[i].kind)
    {
      player := new Chicken();
      score := 0;
      gameOver := false;
      lanes := [];
      trees := [];
      cars := [];
      logs := [];
      timers := [];
      base := 0;
      new;
      Start(draws);
    }

    /** The start-up loop: StartLanes lanes generated into the empty
        window, for rows 0 up to StartLanes - 1, each of the kind its draw
        gives. */
    method Start(draws: seq<Draws>)
      requires Valid() && lanes == [] && |draws| == StartLanes
      requires forall i :: 0 <= i < |draws| ==> draws[i].InRange()
      modifies this
      ensures Valid()
      ensures score == old(score) && gameOver == old(gameOver)
      ensures |lanes| == StartLanes
      ensures forall i :: 0 <= i < |lanes| ==>
                lanes[i].z == i && lanes[i].kind == KindOf(i, draws[i].kind) && fresh(lanes[i])
    {
      for i := 0 to StartLanes
        invariant Valid() && score == old(score) && gameOver == old(gameOver)
        invariant |lanes| == i
        invariant forall j :: 0 <= j < i ==>
                    lanes[j].z == j && lanes[j].kind == KindOf(j, draws[j].kind) && fresh(lanes[j])
      {
        SpawnLane(i, draws[i]);
      }
    }

    /** die(): ends the game; a second call changes nothing. */
    method Die()
      modifies this`gameOver
      ensures gameOver
    {
      if !gameOver {
        gameOver := true;
      }
    }

    /** Chicken.input with the global game-over flag: once the game is over
        a key press changes nothing; otherwise the chicken's own rules
        decide whether the hop is taken, and a refused press changes
        nothing either. */
    method Input(key: string, ahead: Probe<Mover>)
      requires player.Valid()
      modifies player
      ensures player.Valid()
      ensures gameOver || old(player.isMoving) ==> unchanged(player)
      ensures var d := Offset(key);
        var target := old(player.x) + d.0 as real;
        var accepted := && !gameOver && !old(player.isMoving) && d != (0, 0)
                        && Abs(target) <= SideBound && ahead != HitTagged(Obstacle);
        && (accepted ==>
              && player.isMoving && player.parentLog == null
              && player.hop == Some(Hop(target, old(player.z) + d.1 as real))
              && player.x == old(player.x) && player.y == old(player.y) && player.z == old(player.z))
        && (!accepted ==> unchanged(player))
    {
      player.Input(gameOver, key, ahead);
    }

    /** Chicken.update, given the downward probe's result: nothing once
        the game is over; otherwise the fall check, the score (the furthest
        row reached, so it never decreases), then the river logic. */
    method UpdateChicken(dt: real, below: Probe<Mover>)
      requires Valid() && (below.HitLog? ==> below.log.hazard == LogHazard)
      modifies player`x, player`parentLog, this`score, this`gameOver
      ensures Valid()
      ensures old(gameOver) ==> unchanged(this) && unchanged(player)
      ensures score >= old(score)
      ensures !old(gameOver) ==> score == Furthest(old(score), player.z)
      ensures !old(gameOver) ==>
        player.x == match below
                    case HitLog(log) => old(player.x) + log.speed * dt
                    case _ => old(player.x)
      ensures !old(gameOver) ==>
        player.parentLog == match below
                            case Miss => old(player.parentLog)
                            case HitLog(log) => log
                            case HitTagged(tag) => if tag == Water then old(player.parentLog) else null
      ensures !old(gameOver) ==>
        (gameOver <==> FirstCause(player.y < FallDepth,
                                  below == HitTagged(Water) && old(player.parentLog) == null,
                                  below.HitLog? && Abs(player.x) > RideBound).Some?)
    {
      if gameOver { return; }
      if player.y < FallDepth { Die(); }
      var row := Trunc(player.z);
      if row > score { score := row; }
      Ground(dt, below);
    }

    /** The river logic of Chicken.update: the chicken's Ride, then die()
        if its branch calls it. */
    method Ground(dt: real, below: Probe<Mover>)
      requires Valid() && (below.HitLog? ==> below.log.hazard == LogHazard)
      modifies player`x, player`parentLog, this`gameOver
      ensures Valid()
      ensures player.x == match below
                          case HitLog(log) => old(player.x) + log.speed * dt
                          case _ => old(player.x)
      ensures player.parentLog == match below
                                  case Miss => old(player.parentLog)
                                  case HitLog(log) => log
                                  case HitTagged(tag) => if tag == Water then old(player.parentLog) else null
      ensures gameOver <==> (|| old(gameOver)
                             || (below == HitTagged(Water) && old(player.parentLog) == null)
                             || (below.HitLog? && Abs(player.x) > RideBound))
    {
      var death := player.Ride(dt, below);
      if death.Some? { Die(); }
    }

    /** Car.update for a live car, which in this version runs whether or
        not the game is over: it moves, is destroyed past the cull bound,
        and calls die() if it overlaps the chicken. */
    method UpdateCar(c: Mover, dt: real, overlap: bool)
      requires Valid() && c in cars && c.alive
      modifies c, this`gameOver
      ensures Valid()
      ensures c.x == old(c.x) + c.speed * dt
      ensures c.alive <==> Abs(c.x) <= CullBound
      ensures gameOver == (old(gameOver) || overlap)
    {
      c.Advance(dt);
      if overlap { Die(); }
    }

    /** Log.update for a live log, which in this version runs whether or
        not the game is over: it moves and is destroyed past the cull
        bound. */
    method UpdateLog(l: Mover, dt: real)
      requires Valid() && l in logs && l.alive
      modifies l
      ensures Valid()
      ensures l.x == old(l.x) + l.speed * dt
      ensures l.alive <==> Abs(l.x) <= CullBound
    {
      l.Advance(dt);
    }

    /** The scene after one firing of timer t, starting from cars0, logs0
        and timers0: one car or log at t's start edge and row, moving at
        t's speed, and t rescheduled. */
    ghost predicate Fired(cars0: seq<Mover>, logs0: seq<Mover>, timers0: seq<Timer>, t: Timer)
      reads this, cars, logs
    {
      && timers == timers0 + [t]
      && (t.hazard == CarHazard ==> Adds(cars0, cars, CarHazard, StartX(t.speed), t.z, t.speed) && logs == logs0)
      && (t.hazard == LogHazard ==> Adds(logs0, logs, LogHazard, StartX(t.speed), t.z, t.speed) && cars == cars0)
    }

    /** One firing of a spawner closure: stops for good (no reschedule)
        once the game is over, and only then; otherwise adds one car or log
        at the edge it moves away from and schedules the next firing after
        `delay`. */
    method Spawn(z: int, speed: real, hazard: Hazard, delay: real)
      requires Valid() && MinDelay <= delay <= MaxDelay && speed in SpeedsFor(hazard)
      modifies this
      ensures Valid()
      ensures lanes == old(lanes) && trees == old(trees) && base == old(base)
      ensures score == old(score) && gameOver == old(gameOver)
      ensures old(gameOver) ==> cars == old(cars) && logs == old(logs) && timers == old(timers)
      ensures !old(gameOver) ==> Fired(old(cars), old(logs), old(timers), Timer(z, speed, hazard, delay))
      ensures |cars| > |old(cars)| ==> fresh(cars[|cars| - 1])
      ensures |logs| > |old(logs)| ==> fresh(logs[|logs| - 1])
    {
      if gameOver { return; }
      var startX := StartX(speed);
      if hazard == CarHazard {
        var c := new Mover(CarHazard, startX, z, speed);
        cars := cars + [c];
      } else {
        var l := new Mover(LogHazard, startX, z, speed);
        logs := logs + [l];
      }
      timers := timers + [Timer(z, speed, hazard, delay)];
    }

    /** The pending reschedule at index i comes due. It fires whether or not
        its row is still in the window: only game over stops it. */
    method FireSpawner(i: nat, delay: real)
      requires Valid() && i < |timers| && MinDelay <= delay <= MaxDelay
      modifies this
      ensures Valid()
      ensures lanes == old(lanes) && trees == old(trees)
      ensures score == old(score) && gameOver == old(gameOver)
      ensures var t := old(timers[i]);
        var rest := old(timers[..i] + timers[i + 1..]);
        && (old(gameOver) ==> cars == old(cars) && logs == old(logs) && timers == rest)
        && (!old(gameOver) ==> Fired(old(cars), old(logs), rest, t.(delay := delay)))
    {
      var t := timers[i];
      assert t in timers;
      timers := timers[..i] + timers[i + 1..];
      assert forall u :: u in timers ==> u in old(timers);
      Spawn(t.z, t.speed, t.hazard, delay);
    }

    /** spawn_lane: a strip of the drawn kind at row `row` (and on some grass
        strips a tree beside it, on roads and rivers a spawner that fires at
        once), appended to the window; past Capacity the oldest strip, and
        only the strip, is evicted and destroyed. */
    method SpawnLane(row: int, d: Draws)
      requires Valid() && d.InRange()
      modifies this, lanes
      ensures Valid()
      ensures 0 < |lanes| && fresh(lanes[|lanes| - 1])
      ensures lanes == Admit(old(lanes), lanes[|lanes| - 1])
      ensures lanes[|lanes| - 1].z == row && lanes[|lanes| - 1].kind == KindOf(row, d.kind)
      ensures |old(lanes)| >= Capacity ==> !old(lanes)[0].enabled
      ensures trees == old(trees) +
        (if KindOf(row, d.kind) == Grass && d.tree < TreeChance then [Tree(TreeX(d.pick), row)] else [])
      ensures score == old(score) && gameOver == old(gameOver)
      ensures KindOf(row, d.kind) == Grass || old(gameOver) ==>
        cars == old(cars) && logs == old(logs) && timers == old(timers)
      ensures KindOf(row, d.kind) != Grass && !old(gameOver) ==>
        var h := HazardOf(KindOf(row, d.kind));
        Fired(old(cars), old(logs), old(timers), Timer(row, SpeedsFor(h)[d.pick], h, d.delay))
    {
      var kind := KindOf(row, d.kind);
      var strip: Strip;
      if kind == Grass {
        strip := GrassLane(row, d);
      } else {
        strip := HazardLane(row, kind, d);
      }
    }

    /** The grass branch of spawn_lane: a strip, and a tree beside it when
        the tree draw is under TreeChance, the strip admitted to the
        window. */
    method GrassLane(row: int, d: Draws) returns (strip: Strip)
      requires Valid() && d.InRange()
      modifies this, lanes
      ensures Valid() && fresh(strip)
      ensures strip.z == row && strip.kind == Grass
      ensures lanes == Admit(old(lanes), strip)
      ensures |old(lanes)| >= Capacity ==> !old(lanes)[0].enabled
      ensures trees == old(trees) + (if d.tree < TreeChance then [Tree(TreeX(d.pick), row)] else [])
      ensures score == old(score) && gameOver == old(gameOver)
      ensures cars == old(cars) && logs == old(logs) && timers == old(timers)
    {
      strip := new Strip(row, Grass, base + |lanes|);
      if d.tree < TreeChance {
        trees := trees + [Tree(TreeX(d.pick), row)];
      }
      Append(strip);
    }

    /** The road and river branch of spawn_lane: a strip, its spawner's
        first firing, then the strip admitted to the window. */
    method HazardLane(row: int, kind: LaneKind, d: Draws) returns (strip: Strip)
      requires Valid() && d.InRange() && kind != Grass
      modifies this, lanes
      ensures Valid() && fresh(strip)
      ensures strip.z == row && strip.kind == kind
      ensures lanes == Admit(old(lanes), strip)
      ensures |old(lanes)| >= Capacity ==> !old(lanes)[0].enabled
      ensures trees == old(trees) && score == old(score) && gameOver == old(gameOver)
      ensures old(gameOver) ==> cars == old(cars) && logs == old(logs) && timers == old(timers)
      ensures !old(gameOver) ==>
        var h := HazardOf(kind);
        Fired(old(cars), old(logs), old(timers), Timer(row, SpeedsFor(h)[d.pick], h, d.delay))
    {
      strip := new Strip(row, kind, base + |lanes|);
      var h := HazardOf(kind);
      Spawn(row, SpeedsFor(h)[d.pick], h, d.delay);
      Append(strip);
    }

    /** lanes.append(strip), then, past Capacity, pop(0) and destroy the
        oldest strip; trees are untouched. */
    method Append(strip: Strip)
      requires Valid() && strip.enabled && strip.serial == base + |lanes|
      modifies this, lanes
      ensures Valid()
      ensures score == old(score) && gameOver == old(gameOver) && trees == old(trees)
      ensures cars == old(cars) && logs == old(logs) && timers == old(timers)
      ensures lanes == Admit(old(lanes), strip)
      ensures |old(lanes)| >= Capacity ==> !old(lanes)[0].enabled
    {
      lanes := lanes + [strip];
      if |lanes| > Capacity {
        var evicted := lanes[0];
        lanes := lanes[1..];
        base := base + 1;
        evicted.enabled := false;
      }
    }

    /** The terrain manager's frame, which in this version runs whether or
        not the game is over: while the chicken is within LookAhead rows of
        len(lanes), one lane is generated at row len(lanes). */
    method UpdateTerrain(d: Draws)
      requires Valid() && d.InRange()
      modifies this, lanes
      ensures Valid()
      ensures score == old(score) && gameOver == old(gameOver)
      ensures player.z + LookAhead <= |old(lanes)| as real ==> unchanged(this) && unchanged(old(lanes))
      ensures player.z + LookAhead > |old(lanes)| as real ==>
        && 0 < |lanes| && fresh(lanes[|lanes| - 1])
        && lanes == Admit(old(lanes), lanes[|lanes| - 1])
        && (|old(lanes)| >= Capacity ==> !old(lanes)[0].enabled)
        && Map(lanes, Row) == Admit(Map(old(lanes), Row), |old(lanes)|)
      ensures player.z + LookAhead > |old(lanes)| as real ==>
        var row, kind := |old(lanes)|, KindOf(|old(lanes)|, d.kind);
        && lanes[|lanes| - 1].z == row && lanes[|lanes| - 1].kind == kind
        && trees == old(trees) + (if kind == Grass && d.tree < TreeChance then [Tree(TreeX(d.pick), row)] else [])
        && (kind == Grass || old(gameOver) ==> cars == old(cars) && logs == old(logs) && timers == old(timers))
        && (kind != Grass && !old(gameOver) ==>
              var h := HazardOf(kind);
              Fired(old(cars), old(logs), old(timers), Timer(row, SpeedsFor(h)[d.pick], h, d.delay)))
    {
      if player.z + LookAhead > |lanes| as real {
        SpawnLane(|lanes|, d);
        MapAdmit(old(lanes), lanes[|lanes| - 1], Row);
      }
    }

    /** The row a strip was generated at. */
    function Row(s: Strip): int { s.z }
  }
}

=== FILE: entities.dfy ===
/** The entities both versions of the game share unchanged: the cars and
    logs that cross the lanes, and the chicken. What differs between the
    versions (game-over gating, the die call, the globals) lives with each
    version's World. */
module Entities {
  import opened Rules

  /** A car or a log: it enters at a lane's edge, moves at a constant speed
      and is destroyed (alive turns false) once past the cull bound. */
  class Mover {
    const hazard: Hazard
    const speed: real
    const y: real
    const z: int
    var x: real
    var alive: bool

    constructor (hazard: Hazard, x: real, z: int, speed: real)
      ensures this.hazard == hazard && this.x == x && this.z == z && this.speed == speed
      ensures y == SpawnY(hazard) && alive
    {
      this.hazard := hazard;
      this.x := x;
      this.y := SpawnY(hazard);
      this.z := z;
      this.speed := speed;
      alive := true;
    }

    /** The body of a frame shared by cars and logs: x advances by
        speed * dt, and a mover that ends up past CullBound is destroyed.
        A live mover stays alive exactly while it is within the bound. */
    method Advance(dt: real)
      modifies this
      ensures x == old(x) + speed * dt
      ensures old(alive) ==> (alive <==> Abs(x) <= CullBound)
      ensures !old(alive) ==> !alive
    {
      x := x + speed * dt;
      if Abs(x) > CullBound { alive := false; }
    }
  }

  /** One mover of the given hazard appended to a scene list, at (x, z),
      moving at speed, alive. */
  ghost predicate Adds(before: seq<Mover>, after: seq<Mover>, hazard: Hazard, x: real, z: int, speed: real)
    reads after
  {
    && |after| == |before| + 1
    && after[..|before|] == before
    && var m := after[|before|];
       m.hazard == hazard && m.x == x && m.y == SpawnY(hazard) && m.z == z && m.speed == speed && m.alive
  }

  class Chicken {
    var x: real
    var y: real
    var z: real
    var isMoving: bool
    var parentLog: Mover?
    var hop: Option<Hop>

    /** An accepted hop never leads outside the side bounds. */
    ghost predicate Valid()
      reads this
    {
      hop.Some? ==> Abs(hop.value.x) <= SideBound
    }

    constructor ()
      ensures Valid()
      ensures x == 0.0 && y == GroundHeight && z == 0.0
      ensures !isMoving && parentLog == null && hop == None
    {
      x, y, z := 0.0, 1.0, 0.0;
      isMoving := false;
      parentLog := null;
      hop := None;
    }

    /** The river logic of a frame, given the downward probe's result:
        water without a log drowns, a log is ridden (and drifting past
        RideBound is a fall), anything else solid lets go of the log, and
        no hit changes nothing. The result is the cause of the die call
        the branch makes, if any. */
    method Ride(dt: real, below: Probe<Mover>) returns (death: Option<Cause>)
      modifies this`x, this`parentLog
      ensures x == match below
                   case HitLog(log) => old(x) + log.speed * dt
                   case _ => old(x)
      ensures parentLog == match below
                           case Miss => old(parentLog)
                           case HitLog(log) => log
                           case HitTagged(tag) => if tag == Water then old(parentLog) else null
      ensures death == FirstCause(false,
                                  below == HitTagged(Water) && old(parentLog) == null,
                                  below.HitLog? && Abs(x) > RideBound)
    {
      death := None;
      match below
      case Miss =>
      case HitTagged(tag) =>
        if tag == Water {
          if parentLog == null { death := Some(Drowned); }
        } else {
          parentLog := null;
        }
      case HitLog(log) =>
        parentLog := log;
        x := x + log.speed * dt;
        if Abs(x) > RideBound { death := Some(Fell); }
    }

    /** A key press, given the global game-over flag and the result of the
        one-unit probe in the key's direction. Ignored while hopping or once
        the game is over; a step past the side bound or into an obstacle is
        refused; otherwise the chicken starts hopping, lets go of its log
        and heads for the target square. */
    method Input(gameOver: bool, key: string, ahead: Probe<Mover>)
      requires Valid()
      modifies this
      ensures Valid()
      ensures var d := Offset(key);
        var accepted := && !old(isMoving) && !gameOver && d != (0, 0)
                        && Abs(old(x) + d.0 as real) <= SideBound
                        && ahead != HitTagged(Obstacle);
        && (accepted ==> isMoving && parentLog == null
                         && hop == Some(Hop(old(x) + d.0 as real, old(z) + d.1 as real))
                         && x == old(x) && y == old(y) && z == old(z))
        && (!accepted ==> unchanged(this))
    {
      if isMoving || gameOver { return; }
      var (dx, dz) := Offset(key);
      if dx != 0 || dz != 0 {
        var tx := x + dx as real;
        if Abs(tx) > SideBound { return; }
        if ahead == HitTagged(Obstacle) { return; }
        isMoving := true;
        parentLog := null;
        hop := Some(Hop(tx, z + dz as real));
      }
    }

    /** The position tween an accepted hop started reaching its end: the
        chicken stands on the target square, inside the side bounds. */
    method Arrive()
      requires Valid()
      modifies this
      ensures Valid() && hop == None
      ensures old(hop).Some? ==> x == old(hop).value.x && z == old(hop).value.z && Abs(x) <= SideBound
      ensures old(hop) == None ==> x == old(x) && z == old(z)
      ensures y == old(y) && isMoving == old(isMoving) && parentLog == old(parentLog)
    {
      if hop.Some? {
        x, z := hop.value.x, hop.value.z;
      }
      hop := None;
    }

    /** The scheduled end of a hop: back on the ground and ready to move. */
    method Land()
      modifies this
      ensures y == GroundHeight && !isMoving
      ensures x == old(x) && z == old(z) && parentLog == old(parentLog) && hop == old(hop)
    {
      y := 1.0;
      isMoving := false;
    }

    /** The chicken's part of reset_game: back at the origin, on the
        ground, riding nothing; a hop in flight is left as it was. */
    method Respawn()
      modifies this
      ensures x == 0.0 && y == GroundHeight && z == 0.0 && parentLog == null
      ensures isMoving == old(isMoving) && hop == old(hop)
    {
      x, y, z := 0.0, 1.0, 0.0;
      parentLog := null;
    }
  }
}

=== FILE: later.dfy ===
/** The later version of the game (main2.py): deaths carry a cause, the
    game can be restarted, every mover and the terrain manager stop once the
    game is over, and a lane's spawner stops once its strip is destroyed.
    Engine destroy() is an `enabled`/`alive` flag; the scene's cars and logs
    are the lists World.cars and World.logs; invoke() reschedules are the
    Timer records in World.timers. */
module Later {
  import opened Rules
  import opened Window
  import opened Entities

  /** A terrain strip. On grass it may carry a tree as its child entity,
      which the engine destroys together with the strip. */
  class Strip {
    const z: int
    const kind: LaneKind
    const tag: Tag
    const tree: Option<int>
    ghost const serial: nat
    var enabled: bool

    constructor (z: int, kind: LaneKind, tree: Option<int>, ghost serial: nat)
      ensures this.z == z && this.kind == kind && this.tree == tree
      ensures tag == StripTag(kind) && enabled && this.serial == serial
    {
      this.serial := serial;
      this.z := z;
      this.kind := kind;
      this.tag := StripTag(kind);
      this.tree := tree;
      enabled := true;
    }
  }

  /** A pending invoke(spawn, delay): the spawner closure of one lane. */
  datatype Timer = Timer(strip: Strip, z: int, speed: real, hazard: Hazard, delay: real)

  /** destroy() on every mover of a list. */
  method DestroyAll(ms: seq<Mover>)
    modifies ms
    ensures forall m :: m in ms ==> !m.alive
  {
    for i := 0 to |ms|
      invariant forall j :: 0 <= j < i ==> !ms[j].alive
    {
      ms[i].alive := false;
    }
  }

  /** The game's globals (score, game_over, lanes), the scene's movers and
      pending spawner reschedules, and the terrain manager's operations. */
  class World {
    var score: int
    var gameOver: bool
    var cause: Option<Cause>
    var lanes: seq<Strip>
    var cars: seq<Mover>
    var logs: seq<Mover>
    var timers: seq<Timer>
    const player: Chicken
    // creation order of the strips in the window, which keeps them distinct
    ghost var base: nat

    ghost predicate Valid()
      reads this, lanes, cars, logs, set t | t in timers :: t.strip
    {
      && LanesValid()
      && MoversValid()
      && 0 <= score
      && (gameOver <==> cause.Some?)
    }

    /** The window holds at most Capacity distinct live strips, and a
        spawner's strip is live exactly while it is in the window. */
    ghost predicate LanesValid()
      reads this`lanes, this`base, this`timers, lanes, set t | t in timers :: t.strip
    {
      && |lanes| <= Capacity
      && (forall i :: 0 <= i < |lanes| ==> lanes[i].serial == base + i)
      && (forall s :: s in lanes ==> s.enabled)
      && (forall t :: t in timers ==> (t.strip.enabled <==> t.strip in lanes))
      && (forall t :: t in timers ==>
            && t.strip.kind != Grass && t.hazard == HazardOf(t.strip.kind) && t.z == t.strip.z
            && t.speed in SpeedsFor(t.hazard) && MinDelay <= t.delay <= MaxDelay)
    }

    /** Every car and log moves at a speed of its set and, while alive,
        stays within the cull bound. */
    ghost predicate MoversValid()
      reads this`cars, this`logs, cars, logs
    {
      && (forall c :: c in cars ==>
            c.hazard == CarHazard && c.speed in RoadSpeeds && (c.alive ==> Abs(c.x) <= CullBound))
      && (forall l :: l in logs ==>
            l.hazard == LogHazard && l.speed in RiverSpeeds && (l.alive ==> Abs(l.x) <= CullBound))
    }

    /** The game start: a chicken at the origin, then reset_game. */
    constructor (draws: seq<Draws>)
      requires |draws| == StartLanes && forall i :: 0 <= i < |draws| ==> draws[i].InRange()
      ensures Valid() && player.Valid() && fresh(player)
      ensures player.x == 0.0 && player.y == GroundHeight && player.z == 0.0
      ensures !player.isMoving && player.parentLog == null && player.hop == None
      ensures forall s :: s in lanes ==> fresh(s)
      ensures (forall m :: m in cars ==> fresh(m)) && (forall m :: m in logs ==> fresh(m))
      ensures score == 0 && !gameOver && cause == None
      ensures |lanes| == StartLanes
      ensures forall i :: 0 <= i < |lanes| ==> lanes[i].z == i && lanes[i].kind == KindOf(i, draws[i].kind)
    {
      player := new Chicken();
      score := 0;
      gameOver := false;
      cause := None;
      lanes := [];
      cars := [];
      logs := [];
      timers := [];
      new;
      Reset(draws);
    }

    /** die(cause): ends the game once; a second call changes nothing, so
        the first cause is the one that stays. */
    method Die(c: Cause)
      requires Valid()
      modifies this`gameOver, this`cause
      ensures Valid() && gameOver
      ensures cause == if old(gameOver) then old(cause) else Some(c)
    {
      if !gameOver {
        gameOver := true;
        cause := Some(c);
      }
    }

    /** Chicken.input with the global game-over flag: once the game is over
        a key press changes nothing; otherwise the chicken's own rules
        decide whether the hop is taken, and a refused press changes
        nothing either. */
    method Input(key: string, ahead: Probe<Mover>)
      requires player.Valid()
      modifies player
      ensures player.Valid()
      ensures gameOver || old(player.isMoving) ==> unchanged(player)
      ensures var d := Offset(key);
        var target := old(player.x) + d.0 as real;
        var accepted := && !gameOver && !old(player.isMoving) && d != (0, 0)
                        && Abs(target) <= SideBound && ahead != HitTagged(Obstacle);
        && (accepted ==>
              && player.isMoving && player.parentLog == null
              && player.hop == Some(Hop(target, old(player.z) + d.1 as real))
              && player.x == old(player.x) && player.y == old(player.y) && player.z == old(player.z))
        && (!accepted ==> unchanged(player))
    {
      player.Input(gameOver, key, ahead);
    }

    /** Chicken.update, given the downward probe's result: nothing once
        the game is over; otherwise the fall check, the score (the furthest
        row reached, so it never decreases), then the river logic. */
    method UpdateChicken(dt: real, below: Probe<Mover>)
      requires Valid() && (below.HitLog? ==> below.log.hazard == LogHazard)
      modifies player`x, player`parentLog, this`score, this`gameOver, this`cause
      ensures Valid()
      ensures old(gameOver) ==> unchanged(this) && unchanged(player)
      ensures score >= old(score)
      ensures !old(gameOver) ==> score == Furthest(old(score), player.z)
      ensures !old(gameOver) ==>
        player.x == match below
                    case HitLog(log) => old(player.x) + log.speed * dt
                    case _ => old(player.x)
      ensures !old(gameOver) ==>
        player.parentLog == match below
                            case Miss => old(player.parentLog)
                            case HitLog(log) => log
                            case HitTagged(tag) => if tag == Water then old(player.parentLog) else null
      ensures !old(gameOver) ==>
        cause == FirstCause(player.y < FallDepth,
                            below == HitTagged(Water) && old(player.parentLog) == null,
                            below.HitLog? && Abs(player.x) > RideBound)
    {
      if gameOver { return; }
      if player.y < FallDepth { Die(Fell); }
      var row := Trunc(player.z);
      if row > score { score := row; }
      Ground(dt, below);
    }

    /** The river logic of Chicken.update: the chicken's Ride, then the
        die call its branch makes, if any. */
    method Ground(dt: real, below: Probe<Mover>)
      requires Valid() && (below.HitLog? ==> below.log.hazard == LogHazard)
      modifies player`x, player`parentLog, this`gameOver, this`cause
      ensures Valid()
      ensures player.x == match below
                          case HitLog(log) => old(player.x) + log.speed * dt
                          case _ => old(player.x)
      ensures player.parentLog == match below
                                  case Miss => old(player.parentLog)
                                  case HitLog(log) => log
                                  case HitTagged(tag) => if tag == Water then old(player.parentLog) else null
      ensures var death := FirstCause(false,
                                      below == HitTagged(Water) && old(player.parentLog) == null,
                                      below.HitLog? && Abs(player.x) > RideBound);
        && gameOver == (old(gameOver) || death.Some?)
        && cause == if old(gameOver) then old(cause) else death
    {
      var death := player.Ride(dt, below);
      if death.Some? { Die(death.value); }
    }

    /** Car.update for a live car: frozen once the game is over; otherwise
        it moves, is destroyed past the cull bound, and kills the chicken
        with cause RunOver if it overlaps it (the overlap test still runs
        in the frame the car is culled). */
    method UpdateCar(c: Mover, dt: real, overlap: bool)
      requires Valid() && c in cars && c.alive
      modifies c, this`gameOver, this`cause
      ensures Valid()
      ensures old(gameOver) ==> unchanged(c) && unchanged(this)
      ensures !old(gameOver) ==> c.x == old(c.x) + c.speed * dt
      ensures !old(gameOver) ==> (c.alive <==> Abs(c.x) <= CullBound)
      ensures !old(gameOver) ==> gameOver == overlap
      ensures !old(gameOver) ==> cause == if overlap then Some(RunOver) else None
    {
      if gameOver { return; }
      c.Advance(dt);
      if overlap { Die(RunOver); }
    }

    /** Log.update for a live log: frozen once the game is over; otherwise
        it moves and is destroyed past the cull bound. */
    method UpdateLog(l: Mover, dt: real)
      requires Valid() && l in logs && l.alive
      modifies l
      ensures Valid()
      ensures gameOver ==> unchanged(l)
      ensures !gameOver ==> l.x == old(l.x) + l.speed * dt
      ensures !gameOver ==> (l.alive <==> Abs(l.x) <= CullBound)
    {
      if gameOver { return; }
      l.Advance(dt);
    }

    /** The row a strip was generated at. */
    function Row(s: Strip): int { s.z }

    /** The scene after one firing of timer t, starting from cars0, logs0
        and timers0: one car or log at t's start edge and row, moving at
        t's speed, and t rescheduled. */
    ghost predicate Fired(cars0: seq<Mover>, logs0: seq<Mover>, timers0: seq<Timer>, t: Timer)
      reads this, cars, logs
    {
      && timers == timers0 + [t]
      && (t.hazard == CarHazard ==> Adds(cars0, cars, CarHazard, StartX(t.speed), t.z, t.speed) && logs == logs0)
      && (t.hazard == LogHazard ==> Adds(logs0, logs, LogHazard, StartX(t.speed), t.z, t.speed) && cars == cars0)
    }

    /** One firing of a lane's spawner closure: stops for good (no
        reschedule) once the game is over or its strip is destroyed;
        otherwise adds one car or log at the edge it moves away from and
        schedules the next firing after `delay`. */
    method Spawn(strip: Strip, z: int, speed: real, hazard: Hazard, delay: real)
      requires Valid() && MinDelay <= delay <= MaxDelay
      requires strip.kind != Grass && hazard == HazardOf(strip.kind) && z == strip.z
      requires speed in SpeedsFor(hazard) && (strip.enabled ==> strip in lanes)
      modifies this
      ensures Valid()
      ensures lanes == old(lanes) && score == old(score)
      ensures gameOver == old(gameOver) && cause == old(cause)
      ensures old(gameOver) || !strip.enabled ==>
        cars == old(cars) && logs == old(logs) && timers == old(timers)
      ensures !old(gameOver) && strip.enabled ==>
        Fired(old(cars), old(logs), old(timers), Timer(strip, z, speed, hazard, delay))
      ensures forall m :: m in cars ==> m in old(cars) || fresh(m)
      ensures forall m :: m in logs ==> m in old(logs) || fresh(m)
    {
      if gameOver { return; }
      if !strip.enabled { return; }
      var startX := StartX(speed);
      if hazard == CarHazard {
        var c := new Mover(CarHazard, startX, z, speed);
        cars := cars + [c];
      } else {
        var l := new Mover(LogHazard, startX, z, speed);
        logs := logs + [l];
      }
      timers := timers + [Timer(strip, z, speed, hazard, delay)];
    }

    /** The pending reschedule at index i comes due. */
    method FireSpawner(i: nat, delay: real)
      requires Valid() && i < |timers| && MinDelay <= delay <= MaxDelay
      modifies this
      ensures Valid()
      ensures lanes == old(lanes) && score == old(score)
      ensures gameOver == old(gameOver) && cause == old(cause)
      ensures var t := old(timers[i]);
        var rest := old(timers[..i] + timers[i + 1..]);
        && (old(gameOver) || t.strip !in old(lanes) ==>
              cars == old(cars) && logs == old(logs) && timers == rest)
        && (!old(gameOver) && t.strip in old(lanes) ==>
              Fired(old(cars), old(logs), rest, t.(delay := delay)))
    {
      var t := timers[i];
      assert t in timers;
      timers := timers[..i] + timers[i + 1..];
      assert forall u :: u in timers ==> u in old(timers);
      Spawn(t.strip, t.z, t.speed, t.hazard, delay);
    }

    /** spawn_lane: a strip of the drawn kind at row `row` (with a tree on
        some grass strips, a spawner that fires at once on roads and
        rivers), appended to the window; past Capacity the oldest strip is
        evicted and destroyed, which also stops its spawner. */
    method SpawnLane(row: int, d: Draws)
      requires Valid() && d.InRange()
      modifies this, lanes
      ensures Valid()
      ensures 0 < |lanes| && fresh(lanes[|lanes| - 1])
      ensures lanes == Admit(old(lanes), lanes[|lanes| - 1])
      ensures var s := lanes[|lanes| - 1];
        && s.z == row && s.kind == KindOf(row, d.kind)
        && s.tree == (if s.kind == Grass && d.tree < TreeChance then Some(TreeX(d.pick)) else None)
      ensures |old(lanes)| >= Capacity ==> !old(lanes)[0].enabled
      ensures score == old(score) && gameOver == old(gameOver) && cause == old(cause)
      ensures var s := lanes[|lanes| - 1];
        s.kind == Grass || old(gameOver) ==>
          cars == old(cars) && logs == old(logs) && timers == old(timers)
      ensures var s := lanes[|lanes| - 1];
        s.kind != Grass && !old(gameOver) ==>
          var h := HazardOf(s.kind);
          Fired(old(cars), old(logs), old(timers), Timer(s, row, SpeedsFor(h)[d.pick], h, d.delay))
      ensures forall m :: m in cars ==> m in old(cars) || fresh(m)
      ensures forall m :: m in logs ==> m in old(logs) || fresh(m)
    {
      var kind := KindOf(row, d.kind);
      var strip: Strip;
      if kind == Grass {
        strip := GrassLane(row, d);
      } else {
        strip := HazardLane(row, kind, d);
      }
    }

    /** The grass branch of spawn_lane: a strip, with a tree on it when the
        tree draw is under TreeChance, admitted to the window. */
    method GrassLane(row: int, d: Draws) returns (strip: Strip)
      requires Valid() && d.InRange()
      modifies this, lanes
      ensures Valid() && fresh(strip)
      ensures strip.z == row && strip.kind == Grass
      ensures strip.tree == if d.tree < TreeChance then Some(TreeX(d.pick)) else None
      ensures lanes == Admit(old(lanes), strip)
      ensures |old(lanes)| >= Capacity ==> !old(lanes)[0].enabled
      ensures score == old(score) && gameOver == old(gameOver) && cause == old(cause)
      ensures cars == old(cars) && logs == old(logs) && timers == old(timers)
    {
      var tree := if d.tree < TreeChance then Some(TreeX(d.pick)) else None;
      strip := new Strip(row, Grass, tree, base + |lanes|);
      Append(strip);
    }

    /** The road and river branch of spawn_lane: a strip whose spawner
        fires at once, admitted to the window. */
    method HazardLane(row: int, kind: LaneKind, d: Draws) returns (strip: Strip)
      requires Valid() && d.InRange() && kind != Grass
      modifies this, lanes
      ensures Valid() && fresh(strip)
      ensures strip.z == row && strip.kind == kind && strip.tree == None
      ensures lanes == Admit(old(lanes), strip)
      ensures |old(lanes)| >= Capacity ==> !old(lanes)[0].enabled
      ensures score == old(score) && gameOver == old(gameOver) && cause == old(cause)
      ensures old(gameOver) ==> cars == old(cars) && logs == old(logs) && timers == old(timers)
      ensures !old(gameOver) ==>
        var h := HazardOf(kind);
        Fired(old(cars), old(logs), old(timers), Timer(strip, row, SpeedsFor(h)[d.pick], h, d.delay))
      ensures forall m :: m in cars ==> m in old(cars) || fresh(m)
      ensures forall m :: m in logs ==> m in old(logs) || fresh(m)
    {
      strip := new Strip(row, kind, None, base + |lanes|);
      // The game fires the new spawner before appending the strip; the
      // firing reads neither the lane list nor the evicted strip, so
      // appending first changes nothing observable.
      Append(strip);
      assert lanes[|lanes| - 1] == strip && strip.enabled;
      var h := HazardOf(kind);
      Spawn(strip, row, SpeedsFor(h)[d.pick], h, d.delay);
    }

    /** lanes.append(strip), then, past Capacity, pop(0) and destroy the
        oldest strip. */
    method Append(strip: Strip)
      requires Valid() && strip.enabled && strip.serial == base + |lanes|
      requires forall t :: t in timers ==> t.strip != strip
      modifies this, lanes
      ensures Valid()
      ensures score == old(score) && gameOver == old(gameOver) && cause == old(cause)
      ensures cars == old(cars) && logs == old(logs) && timers == old(timers)
      ensures lanes == Admit(old(lanes), strip)
      ensures |old(lanes)| >= Capacity ==> !old(lanes)[0].enabled
    {
      lanes := lanes + [strip];
      if |lanes| > Capacity {
        var evicted := lanes[0];
        lanes := lanes[1..];
        base := base + 1;
        evicted.enabled := false;
        assert forall t :: t in timers && t.strip != evicted ==>
          (t.strip in lanes <==> t.strip in old(lanes) + [strip]);
      }
    }

    /** The terrain manager's frame: while the game runs and the chicken is
        within LookAhead rows of len(lanes), one lane is generated at row
        len(lanes). */
    method UpdateTerrain(d: Draws)
      requires Valid() && d.InRange()
      modifies this, lanes
      ensures Valid()
      ensures score == old(score) && gameOver == old(gameOver) && cause == old(cause)
      ensures old(gameOver) || player.z + LookAhead <= |old(lanes)| as real ==>
        unchanged(this) && unchanged(old(lanes))
      ensures !old(gameOver) && player.z + LookAhead > |old(lanes)| as real ==>
        && 0 < |lanes| && fresh(lanes[|lanes| - 1])
        && lanes == Admit(old(lanes), lanes[|lanes| - 1])
        && (|old(lanes)| >= Capacity ==> !old(lanes)[0].enabled)
        && Map(lanes, Row) == Admit(Map(old(lanes), Row), |old(lanes)|)
      ensures !old(gameOver) && player.z + LookAhead > |old(lanes)| as real ==>
        var s, row := lanes[|lanes| - 1], |old(lanes)|;
        && s.z == row && s.kind == KindOf(row, d.kind)
        && s.tree == (if s.kind == Grass && d.tree < TreeChance then Some(TreeX(d.pick)) else None)
        && (s.kind == Grass ==> cars == old(cars) && logs == old(logs) && timers == old(timers))
        && (s.kind != Grass ==>
              var h := HazardOf(s.kind);
              Fired(old(cars), old(logs), old(timers), Timer(s, row, SpeedsFor(h)[d.pick], h, d.delay)))
    {
      if !gameOver && player.z + LookAhead > |lanes| as real {
        SpawnLane(|lanes|, d);
        MapAdmit(old(lanes), lanes[|lanes| - 1], Row);
      }
    }

    /** The scene sweep of reset_game: every strip (with its tree), car and
        log is destroyed, so every pending spawner's strip is dead. */
    method Sweep()
      requires Valid()
      modifies lanes, cars, logs
      ensures forall s :: s in lanes ==> !s.enabled
      ensures forall c :: c in cars ==> !c.alive
      ensures forall l :: l in logs ==> !l.alive
      ensures forall t :: t in timers ==> !t.strip.enabled
    {
      for i := 0 to |lanes|
        invariant forall j :: 0 <= j < i ==> !lanes[j].enabled
        invariant forall t :: t in timers && t.strip !in lanes ==> !t.strip.enabled
      {
        lanes[i].enabled := false;
      }
      DestroyAll(cars);
      DestroyAll(logs);
    }

    /** reset_game: score and game_over cleared, the chicken back at the
        origin without a log, every strip, tree, car and log destroyed (so
        no earlier spawner can fire again), and StartLanes fresh lanes for
        rows 0 up to StartLanes - 1. */
    method Reset(draws: seq<Draws>)
      requires Valid()
      requires |draws| == StartLanes && forall i :: 0 <= i < |draws| ==> draws[i].InRange()
      modifies this, player, set s | s in lanes, set m | m in cars, set m | m in logs
      ensures Valid()
      ensures score == 0 && !gameOver && cause == None
      ensures player.x == 0.0 && player.y == GroundHeight && player.z == 0.0 && player.parentLog == null
      ensures player.isMoving == old(player.isMoving) && player.hop == old(player.hop)
      ensures forall s :: s in old(lanes) ==> !s.enabled
      ensures forall c :: c in old(cars) ==> !c.alive
      ensures forall l :: l in old(logs) ==> !l.alive
      ensures forall t :: t in old(timers) ==> !t.strip.enabled
      ensures |lanes| == StartLanes
      ensures forall i :: 0 <= i < |lanes| ==>
                lanes[i].z == i && lanes[i].kind == KindOf(i, draws[i].kind) && fresh(lanes[i])
      ensures (forall m :: m in cars ==> fresh(m)) && (forall m :: m in logs ==> fresh(m))
    {
      score := 0;
      gameOver := false;
      cause := None;

      player.Respawn();

      Clear();
      Rebuild(draws);
    }

    /** The sweep followed by emptying the three lists: nothing of the old
        scene is left, and no pending spawner can fire. */
    method Clear()
      requires Valid()
      modifies this`lanes, this`cars, this`logs, lanes, cars, logs
      ensures Valid() && lanes == [] && cars == [] && logs == []
      ensures forall s :: s in old(lanes) ==> !s.enabled
      ensures forall c :: c in old(cars) ==> !c.alive
      ensures forall l :: l in old(logs) ==> !l.alive
      ensures forall t :: t in timers ==> !t.strip.enabled
    {
      Sweep();
      lanes, cars, logs := [], [], [];
    }

    /** The start of a run: StartLanes lanes generated into the empty
        window, for rows 0 up to StartLanes - 1. */
    method Rebuild(draws: seq<Draws>)
      requires Valid() && lanes == [] && !gameOver
      requires |draws| == StartLanes && forall i :: 0 <= i < |draws| ==> draws[i].InRange()
      modifies this
      ensures Valid()
      ensures score == old(score) && !gameOver && cause == old(cause)
      ensures |lanes| == StartLanes
      ensures forall i :: 0 <= i < |lanes| ==>
                lanes[i].z == i && lanes[i].kind == KindOf(i, draws[i].kind) && fresh(lanes[i])
      ensures forall t :: t in old(timers) ==> t in timers
      ensures forall m :: m in cars ==> m in old(cars) || fresh(m)
      ensures forall m :: m in logs ==> m in old(logs) || fresh(m)
    {
      for i := 0 to StartLanes
        invariant Valid() && !gameOver
        invariant score == old(score) && cause == old(cause)
        invariant |lanes| == i
        invariant forall j :: 0 <= j < i ==>
                    lanes[j].z == j && lanes[j].kind == KindOf(j, draws[j].kind) && fresh(lanes[j])
        invariant forall t :: t in old(timers) ==> t in timers
        invariant forall m :: m in cars ==> m in old(cars) || fresh(m)
        invariant forall m :: m in logs ==> m in old(logs) || fresh(m)
      {
        StartLane(i, draws[i]);
      }
    }

    /** One pass of the start-up loop: spawn_lane(i) into a window that is
        not yet full, so the new strip is simply appended. */
    method StartLane(i: nat, d: Draws)
      requires Valid() && !gameOver && |lanes| == i < Capacity && d.InRange()
      modifies this, lanes
      ensures Valid() && !gameOver && score == old(score) && cause == old(cause)
      ensures |lanes| == i + 1 && lanes[..i] == old(lanes)
      ensures lanes[i].z == i && lanes[i].kind == KindOf(i, d.kind) && fresh(lanes[i])
      ensures forall t :: t in old(timers) ==> t in timers
      ensures forall m :: m in cars ==> m in old(cars) || fresh(m)
      ensures forall m :: m in logs ==> m in old(logs) || fresh(m)
    {
      SpawnLane(i, d);
    }
  }
}

=== FILE: rules.dfy ===
/** Rules shared by both versions of the game: the lane-kind draw, the fixed
    sets hazard speeds and tree positions are picked from, the side a hazard
    enters from, the key-to-step mapping and Python's int() truncation.
    Engine queries (raycasts, overlap tests) and random draws are values the
    caller supplies. */
module Rules {

  datatype Option<T> = None | Some(value: T)

  /** The kind of a terrain strip (lane_type in the game). */
  datatype LaneKind = Grass | Road | River

  /** What a lane's spawner emits: cars on roads, logs on rivers. */
  datatype Hazard = CarHazard | LogHazard

  /** Tags an engine probe can report for an entity that is not a log. */
  datatype Tag = Ground | Water | Obstacle | CarTag | Untagged

  /** The result of a raycast: nothing, a tagged entity, or a log (the log
      itself, since the chicken rides it). */
  datatype Probe<L> = Miss | HitTagged(tag: Tag) | HitLog(log: L)

  /** The causes the later version passes to die. */
  datatype Cause = Fell | Drowned | RunOver

  /** Where an accepted hop ends (the target of the position tween). */
  datatype Hop = Hop(x: real, z: real)

  const SafeRows := 5
  const GrassBelow := 0.4
  const RoadBelow := 0.7
  const TreeChance := 0.3
  const RoadSpeeds: seq<real> := [-4.0, -3.0, 3.0, 4.0]
  const RiverSpeeds: seq<real> := [-2.0, -1.5, 1.5, 2.0]
  const TreeXs: seq<int> := [-3, -2, 2, 3]
  const MinDelay := 1.5
  const MaxDelay := 3.5
  const SpawnEdge := 12.0
  const CullBound := 15.0
  const SideBound := 4.0
  const RideBound := 10.0
  const FallDepth := -5.0
  const StartLanes := 15
  const LookAhead := 15.0
  const GroundHeight := 1.0

  /** The random draws one call of spawn_lane consumes: random.random() for
      the kind, random.random() for the tree chance, an index for
      random.choice over a four-element list, and the random.uniform delay
      of the spawner's first reschedule. */
  datatype Draws = Draws(kind: real, tree: real, pick: nat, delay: real) {
    predicate InRange() {
      && 0.0 <= kind < 1.0
      && 0.0 <= tree < 1.0
      && pick < 4
      && MinDelay <= delay <= MaxDelay
    }
  }

  function Abs(r: real): real {
    if r < 0.0 then -r else r
  }

  /** The lane kind for a row: the first five rows are grass whatever the
      draw; past them the draw (in [0, 1) from random.random()) splits into
      grass, road and river. */
  function KindOf(row: int, draw: real): (k: LaneKind)
    ensures row < SafeRows ==> k == Grass
    ensures row >= SafeRows ==> (k == Grass <==> draw < GrassBelow)
    ensures row >= SafeRows ==> (k == Road <==> GrassBelow <= draw < RoadBelow)
    ensures row >= SafeRows ==> (k == River <==> RoadBelow <= draw)
  {
    if row < SafeRows then Grass
    else if draw < GrassBelow then Grass
    else if draw < RoadBelow then Road
    else River
  }

  /** The tag a strip of the given kind carries: rivers are water, the rest
      solid ground. */
  function StripTag(kind: LaneKind): (t: Tag)
    ensures t == Water <==> kind == River
    ensures t != Water ==> t == Ground
  {
    if kind == River then Water else Ground
  }

  /** The hazard a non-grass lane spawns. */
  function HazardOf(kind: LaneKind): (h: Hazard)
    requires kind != Grass
    ensures h == CarHazard <==> kind == Road
  {
    if kind == Road then CarHazard else LogHazard
  }

  /** The speeds a hazard kind is drawn from: two magnitudes per hazard,
      each in both directions, so lanes run both ways. */
  function SpeedsFor(h: Hazard): (s: seq<real>)
    ensures |s| == 4
    ensures forall v :: v in s ==> v != 0.0 && -v in s
    ensures h == CarHazard ==> forall v :: v in s ==> Abs(v) == 3.0 || Abs(v) == 4.0
    ensures h == LogHazard ==> forall v :: v in s ==> Abs(v) == 1.5 || Abs(v) == 2.0
    ensures h == CarHazard ==> 3.0 in s && 4.0 in s
    ensures h == LogHazard ==> 1.5 in s && 2.0 in s
  {
    if h == CarHazard then RoadSpeeds else RiverSpeeds
  }

  /** The height a spawned hazard appears at: cars stand on the road, logs
      sit at height 0.1, inside the lowered river strip. */
  function SpawnY(h: Hazard): (y: real)
    ensures h == CarHazard ==> y == GroundHeight
    ensures h == LogHazard ==> 0.0 < y < GroundHeight
  {
    if h == CarHazard then 1.0 else 0.1
  }

  /** The tree position for a pick: never the centre column, two or three
      columns out on either side. */
  function TreeX(pick: nat): (x: int)
    requires pick < 4
    ensures x != 0 && x in TreeXs
    ensures 2 <= x <= 3 || -3 <= x <= -2
  {
    TreeXs[pick]
  }

  /** The x a hazard enters at: the edge it moves away from, so a positive
      speed starts on the left and a non-positive one on the right. */
  function StartX(speed: real): (x: real)
    ensures Abs(x) == SpawnEdge
    ensures x < 0.0 <==> speed > 0.0
  {
    if speed > 0.0 then -SpawnEdge else SpawnEdge
  }

  const MoveKeys: set<string> := {"w", "s", "a", "d"}

  /** The (dx, dz) step a key asks for: w forward, s back, a left, d right;
      any other key asks for no step. */
  function Offset(key: string): (d: (int, int))
    ensures d != (0, 0) <==> key in MoveKeys
    ensures d.1 == 1 <==> key == "w"
    ensures d.1 == -1 <==> key == "s"
    ensures d.0 == -1 <==> key == "a"
    ensures d.0 == 1 <==> key == "d"
    ensures d.0 == 0 || d.1 == 0
  {
    if key == "w" then (0, 1)
    else if key == "s" then (0, -1)
    else if key == "a" then (-1, 0)
    else if key == "d" then (1, 0)
    else (0, 0)
  }

  /** Python's int() on a float: truncation toward zero. */
  function Trunc(z: real): (n: int)
    ensures 0.0 <= z ==> 0 <= n && n as real <= z < n as real + 1.0
    ensures z < 0.0 ==> n <= 0 && n as real - 1.0 < z <= n as real
  {
    if z >= 0.0 then z.Floor else -((-z).Floor)
  }

  /** The furthest row reached: the score after a tick's update. */
  function Furthest(score: int, z: real): (s: int)
    ensures s >= score && s >= Trunc(z)
    ensures s == score || s == Trunc(z)
  {
    if Trunc(z) > score then Trunc(z) else score
  }

  /** The cause of the first die call a chicken tick makes, if any: falling
      below the world, then water without a log, then drifting off on a
      log. */
  function FirstCause(fell: bool, drowned: bool, drifted: bool): (c: Option<Cause>)
    ensures c == None <==> !fell && !drowned && !drifted
    ensures c == Some(Drowned) <==> !fell && drowned
    ensures c == Some(Fell) <==> fell || (!drowned && drifted)
    ensures c != Some(RunOver)
  {
    if fell then Some(Fell)
    else if drowned then Some(Drowned)
    else if drifted then Some(Fell)
    else None
  }
}

=== FILE: scenarios.dfy ===
/** Concrete runs of the model, played through the operations above with
    fixed probe results and draws. */
module Scenarios {
  import opened Rules
  import opened Entities
  import Later
  import Early

  /** Fifteen draws that keep every start lane grass without a tree. */
  function CalmDraws(): (draws: seq<Draws>)
    ensures |draws| == StartLanes && forall i :: 0 <= i < |draws| ==> draws[i].InRange()
  {
    seq(StartLanes, _ => Draws(0.0, 0.5, 0, 2.0))
  }

  /** In a running game the chicken hops left from the start square four
      times (landing after each), reaching the side bound; a fifth left hop
      is refused and leaves it standing where it was. */
  method LeftPastBoundIsRefused() returns (x: real, moving: bool)
    ensures x == -SideBound && !moving
  {
    var w := new Later.World(CalmDraws());
    for k := 0 to 4
      invariant !w.gameOver && w.player.Valid() && !w.player.isMoving && w.player.x == -(k as real)
    {
      w.Input("a", Miss);
      w.player.Arrive();
      w.player.Land();
    }
    w.Input("a", Miss);
    x, moving := w.player.x, w.player.isMoving;
  }

  /** Standing over water with no log below: the next tick ends the game
      by drowning. */
  method WaterWithoutLogDrowns() returns (over: bool, cause: Option<Cause>)
    ensures over && cause == Some(Drowned)
  {
    var w := new Later.World(CalmDraws());
    w.UpdateChicken(0.1, HitTagged(Water));
    over, cause := w.gameOver, w.cause;
  }

  /** Riding a log of speed 2.0 from offset 9.5 for dt = 0.5 carries the
      chicken to 10.5, past the ride bound: a fall. */
  method DriftOffLogFalls() returns (x: real, cause: Option<Cause>)
    ensures x == 10.5 && cause == Some(Fell)
  {
    var w := new Later.World(CalmDraws());
    var log := new Mover(LogHazard, 9.5, 7, 2.0);
    w.player.x := 9.5;
    w.player.parentLog := log;
    w.UpdateChicken(0.5, HitLog(log));
    x, cause := w.player.x, w.cause;
  }

  /** A car at 14.9 moving at 4.0 for dt = 0.1 reaches 15.3 and is
      destroyed. */
  method CarPastCullIsDestroyed() returns (x: real, alive: bool)
    ensures x == 15.3 && !alive
  {
    var car := new Mover(CarHazard, 14.9, 7, 4.0);
    car.Advance(0.1);
    x, alive := car.x, car.alive;
  }

  /** Run over, then drowned in the same tick: the first cause stays. */
  method FirstDeathSticks() returns (cause: Option<Cause>)
    ensures cause == Some(RunOver)
  {
    var w := new Later.World(CalmDraws());
    w.Die(RunOver);
    w.Die(Drowned);
    cause := w.cause;
  }

  /** A restart after being run over: score 0, the game running, the
      chicken back at the origin and exactly StartLanes fresh lanes. */
  method RestartAfterRunOver() returns (score: int, over: bool, x: real, z: real, lanes: nat)
    ensures score == 0 && !over && x == 0.0 && z == 0.0 && lanes == StartLanes
  {
    var w := new Later.World(CalmDraws());
    w.Die(RunOver);
    w.Reset(CalmDraws());
    score, over, x, z, lanes := w.score, w.gameOver, w.player.x, w.player.z, |w.lanes|;
  }

  /** In the earlier version the game being over does not freeze the
      scene: a car spawned at speed 4.0 still advances after the chicken
      has died. Spawn does not read the lane list, so row 7 stands for any
      road row here. */
  method EarlyCarMovesAfterDeath() returns (over: bool, x: real)
    ensures over && x == -SpawnEdge + 0.4
  {
    var w := new Early.World(CalmDraws());
    w.Spawn(7, 4.0, CarHazard, 2.0);
    var car := w.cars[|w.cars| - 1];
    w.Die();
    w.UpdateCar(car, 0.1, false);
    over, x := w.gameOver, car.x;
  }
}

=== FILE: window.dfy ===
/** The lane list as a FIFO window: each new strip is appended and, once the
    list holds more than Capacity strips, the oldest is evicted. Also the
    rows the terrain manager asks for, which are the list's length at the
    time and therefore stop growing once the window is full. */
module Window {

  const Capacity := 40

  function Min(a: int, b: int): int { if a < b then a else b }
  function Max(a: int, b: int): int { if a < b then b else a }

  /** The window after appending s: the new entry is last, the survivors
      are the newest entries of w in their old order, and the window grows
      by one until it is full, then keeps its size. */
  function Admit<T>(w: seq<T>, s: T): (r: seq<T>)
    ensures 0 < |r| && r[|r| - 1] == s
    ensures |r| == if |w| < Capacity then |w| + 1 else |w|
    ensures r[..|r| - 1] == w[|w| + 1 - |r|..]
  {
    var grown := w + [s];
    if |grown| > Capacity then grown[1..] else grown
  }

  /** f applied to every entry of w, in order. */
  function Map<T, U>(w: seq<T>, f: T -> U): (r: seq<U>)
    ensures |r| == |w| && forall i :: 0 <= i < |w| ==> r[i] == f(w[i])
  {
    seq(|w|, i requires 0 <= i < |w| => f(w[i]))
  }

  /** Admitting commutes with a per-entry view (such as a strip's row):
      the view of the new window is the old view with f(s) admitted. */
  lemma MapAdmit<T, U>(w: seq<T>, s: T, f: T -> U)
    ensures Map(Admit(w, s), f) == Admit(Map(w, f), f(s))
  {
    var grown, views := w + [s], Map(w, f) + [f(s)];
    assert Map(grown, f) == views;
    if |grown| > Capacity {
      assert Map(grown[1..], f) == views[1..];
    }
  }

  /** Admitting the entries of items one after another. */
  function AdmitAll<T>(w: seq<T>, items: seq<T>): seq<T>
    decreases |items|
  {
    if items == [] then w else AdmitAll(Admit(w, items[0]), items[1..])
  }

  /** The last n entries of s (all of s when it is shorter). */
  function Newest<T>(s: seq<T>, n: nat): seq<T> {
    if |s| <= n then s else s[|s| - n..]
  }

  /** Admitting x and then keeping the newest Capacity entries of what
      follows is the same as keeping the newest of the whole history. */
  lemma NewestAdmit<T>(w: seq<T>, x: T, rest: seq<T>)
    requires |w| <= Capacity
    ensures Newest(Admit(w, x) + rest, Capacity) == Newest(w + [x] + rest, Capacity)
  {
    if |w| == Capacity {
      var all := w + [x] + rest;
      assert Admit(w, x) + rest == all[1..];
    }
  }

  /** FIFO: however many strips are generated, a window that started within
      capacity holds exactly the Capacity most recent ones, oldest first. */
  lemma {:induction false} AdmitAllKeepsNewest<T>(w: seq<T>, items: seq<T>)
    requires |w| <= Capacity
    ensures AdmitAll(w, items) == Newest(w + items, Capacity)
    decreases |items|
  {
    if items == [] {
      assert w + items == w;
    } else {
      AdmitAllKeepsNewest(Admit(w, items[0]), items[1..]);
      NewestAdmit(w, items[0], items[1..]);
      assert w + [items[0]] + items[1..] == w + items;
    }
  }

  /** The window is never larger than Capacity once it has been within it. */
  lemma {:induction false} AdmitAllBounded<T>(w: seq<T>, items: seq<T>)
    requires |w| <= Capacity
    ensures |AdmitAll(w, items)| == Min(|w| + |items|, Capacity)
  {
    AdmitAllKeepsNewest(w, items);
  }

  /** The rows of the window after the terrain manager has generated n
      lanes into an empty list, each at row len(lanes). */
  function GrownRows(n: nat): seq<int> {
    if n == 0 then [] else var w := GrownRows(n - 1); Admit(w, |w|)
  }

  /** The shape of those rows: 0, 1, 2, ... until the window is full; after
      that every new lane is generated at row Capacity again, so the row
      at position i is i shifted by the number of evictions, capped at
      Capacity. */
  function RowShape(n: nat): (rows: seq<int>)
    ensures |rows| == Min(n, Capacity)
    ensures n <= Capacity ==> forall i :: 0 <= i < |rows| ==> rows[i] == i
    ensures forall i, j :: 0 <= i < j < |rows| ==> rows[i] <= rows[j] <= Capacity
    ensures n > 0 ==> rows[|rows| - 1] == Min(n - 1, Capacity)
    ensures n > Capacity ==> rows[0] == Min(n - Capacity, Capacity)
  {
    var shift := Max(0, n - Capacity);
    var rows := seq(Min(n, Capacity), i => Min(i + shift, Capacity));
    assert forall i :: 0 <= i < |rows| ==> rows[i] == Min(i + shift, Capacity);
    rows
  }

  /** Position i of the shape: i shifted by the number of evictions,
      capped at Capacity. */
  lemma RowShapeAt(n: nat)
    ensures forall i :: 0 <= i < |RowShape(n)| ==>
              RowShape(n)[i] == Min(i + Max(0, n - Capacity), Capacity)
  {
  }

  /** One more generated lane moves the shape on by one step. */
  lemma RowShapeStep(n: nat)
    requires n > 0
    ensures RowShape(n) == Admit(RowShape(n - 1), |RowShape(n - 1)|)
  {
    RowShapeAt(n - 1);
    RowShapeAt(n);
    var w, r := RowShape(n - 1), Admit(RowShape(n - 1), |RowShape(n - 1)|);
    if n - 1 < Capacity {
      assert r == w + [n - 1];
    } else {
      assert r == (w + [Capacity])[1..];
      forall i | 0 <= i < |r| - 1 ensures r[i] == RowShape(n)[i] {
        assert r[i] == w[i + 1];
      }
    }
  }

  /** The rows the terrain manager generates have exactly that shape. */
  lemma {:induction false} GrownRowsShape(n: nat)
    ensures GrownRows(n) == RowShape(n)
  {
    if n > 0 {
      var w := GrownRows(n - 1);
      GrownRowsShape(n - 1);
      RowShapeStep(n);
      assert GrownRows(n) == Admit(w, |w|);
    }
  }

  /** Until the window first fills, the rows are contiguous from 0. */
  lemma RowsContiguousWhileFilling(n: nat)
    requires n <= Capacity
    ensures |GrownRows(n)| == n
    ensures forall i :: 0 <= i < n ==> GrownRows(n)[i] == i
  {
    GrownRowsShape(n);
  }

  /** After two evictions the two newest lanes share row Capacity: rows are
      not contiguous past the window size. */
  lemma RowsRepeatAfterEviction(n: nat)
    requires n >= Capacity + 2
    ensures |GrownRows(n)| == Capacity
    ensures GrownRows(n)[Capacity - 1] == Capacity
    ensures GrownRows(n)[Capacity - 2] == Capacity
  {
    GrownRowsShape(n);
    RowShapeAt(n);
  }
}
